=== FILE: README.md ===
# crano crawl frontier, modelled in Dafny

crano crawls a graph of pages, starting from a seed page. A single coordinator goroutine (`crawler.run`) owns the frontier: a map from URL to an entry with a `done` flag. It also owns the busy-worker counter `nbusy` and the pending-work flag `hasWork`. Workers take pages from the bounded `workers` channel, visit each one through its site, and report its outgoing pages back with `done(ps)`. `done` queues a closure on the coordinator's command channel. After every command, `run` stops if there is no work and no busy worker. Otherwise, if `hasWork` holds, it runs `sched` again, which dispatches undone entries until the pool is busy.

Each file below models part of that system:

- `crawl.dfy` (module `Crawl`): the coordinator, modelled as a sequential state machine over `Crawler(urls, nworkers, nbusy, hasWork)`.
  - `Sched` is `sched`. Go's map iteration order is an explicit parameter: any ordering of the keys.
  - `Done` is the closure that `done(ps)` queues.
  - `Step` is one iteration of `run`.
  - `Work` and `Serve` are the worker loop.
- `crawl_run.dfy` (module `CrawlRun`): whole runs. A `System` adds to the coordinator:
  - the pages held by workers;
  - every URL ever dispatched;
  - whether `run` has exited.

  Reports arrive in any order, and every pass may iterate the map in any order. The module proves:
  - an invariant: exact accounting, each URL sent once, and a sound work flag;
  - a termination measure;
  - that a run with the corrected loop terminates with the frontier equal to the pages reachable from the seed, the least set that holds the seed and is closed under the graph's links (`CompleteRun`);
  - a concrete stall for the loop as written.
- `matching.dfy` (module `Matching`): `matcher.match`, all words contained.
- `http.dfy` (module `Http`): `inList`, `setCookies` and `normalize`.
- `lomb24.dfy` (module `Lomb24`): the lombard24.ee site. A start page lists numbered detail pages, and `visit` dispatches on the page type.
- `lomb24_crawl.dfy` (module `Lomb24Crawl`): the site plugged into the coordinator.
  - The graph a worker sees when the start page lists n pages.
  - A proof that a run dispatches exactly those n + 1 pages.
  - The stall of the loop as written on a site that lists one page.
- `legacy.dfy` (module `Legacy`): main.go, an older standalone version. Its copies of the matcher and cookie filter delegate to the shared definitions. It adds the page-number loop of `lomb24.crawl`.
- `format.dfy` (module `Format`): the `%d` rendering of page numbers.
- `prelude.dfy` (module `Prelude`): `Option`, `Result`, bytes, and sequence helpers.

The program documents its own promise: `wait` returns when the crawler has no more work to carry out (crawl.go:86), and `run` keeps the workers busy until the pages to visit have run out (crawl.go:142-144). The `run` loop as written does not keep that promise (see Findings). The whole-run theorems are therefore proved for the loop with the stop test repeated after the reschedule. For the loop as written, the model exhibits the stall.

## Model

| member | source | states |
|---|---|---|
| Crawl.ReportOf | crawl.go:33-52 | A worker whose visit succeeded and whose `pages()` succeeded reports exactly that list. Every other path reports nil, and a non-empty report always comes from such a page |
| Crawl.Work | crawl.go:32-52 | The report is the page's `done` argument; the URL goes to the sink exactly when a visited page's contents match |
| Crawl.Sunk | crawl.go:30-46 | The sink's list for a sequence of taken pages: at most one URL per page, and a URL occurs iff some taken page was visited at that URL with matching contents |
| Crawl.Serve | crawl.go:29-53 | A worker's loop produces one `done` report per page taken, and hands the sink one URL per matching visited page, in the order taken (the order-preserving filter `Sunk`) |
| Crawl.NewCrawler | crawl.go:72-80 | A new crawler knows only the start URL, undone, with the given pool size, nobody busy and no work flag |
| Crawl.SchedFrom | crawl.go:95-106 | The remainder of the scheduling loop sends distinct undone keys and marks exactly those done; it stops as soon as the pool is full |
| Crawl.Sched | crawl.go:93-109 | A pass keeps the keys and raises `nbusy` by the number sent. The pages sent are distinct, previously undone and now marked done. `hasWork` holds iff any entry was undone, iff anything was sent. The pass never overfills the pool and leaves undone entries only when the pool is full |
| Crawl.SchedShrinksUndone | crawl.go:95-106 | After a pass, the undone set is the old undone set minus the pages sent, and the sizes add up |
| Crawl.Ingest | crawl.go:125-134 | Ingesting links adds exactly the unknown URLs as undone entries and keeps existing entries' flags; it reports an insertion iff some link was unknown |
| Crawl.Done | crawl.go:118-140 | A report frees one worker and adds every unknown link as an undone entry. It sets the work flag iff some link was new (or it was already set). An empty report changes nothing else |
| Crawl.DoneIdempotent | crawl.go:125-134 | Repeating a report with the same links adds no entries and leaves the work flag as it was |
| Crawl.DoneDependsOnLinkSet | crawl.go:125-137 | Two reports with the same set of links, in any order or multiplicity, give the same crawler |
| Crawl.Apply | crawl.go:147 | `fn()` is `done`'s effect for a report, which sends nothing. For the initial `sched` it raises `nbusy` by the number of pages sent and sets the work flag iff some entry was undone |
| Crawl.Step | crawl.go:145-157 | One `run` iteration as written exits iff, right after `fn()`, there is no work and no busy worker. Otherwise it runs exactly one `sched` pass when `fn()` left work, and leaves `fn()`'s result untouched when it did not |
| Crawl.StepRechecked | crawl.go:145-160 | With the stop test repeated after the reschedule, an iteration runs exactly one `sched` pass when `fn()` left work and none otherwise, and exits exactly when it leaves no work and no busy worker |
| Crawl.StepLeavesIdleRunning | crawl.go:150-156 | A concrete last report after a work-setting pass: the loop as written leaves an idle coordinator running, and the rechecking loop exits |
| CrawlRun.SchedSendsSoleUndone | crawl.go:95-106 | A pass over a map with exactly one undone entry sends exactly that entry |
| CrawlRun.BootEstablishes | crawl.go:72-84 | `newCrawler` plus its first `sched` establishes the invariant and dispatches the seed |
| CrawlRun.TurnShape | crawl.go:146-156 | After a report, an iteration either leaves `done`'s result untouched or runs exactly one pass on it |
| CrawlRun.DeliverKeepsAccounting | crawl.go:101-120 | A report keeps `nbusy` equal to the number of held pages and within the pool |
| CrawlRun.DeliverSendsOnce | crawl.go:95-102 | A report sends only undone URLs, so no URL is ever sent twice and the sent URLs stay exactly the entries marked done |
| CrawlRun.DeliverKeepsFlagSound | crawl.go:107-137 | After a report, a cleared work flag still means nothing is left to dispatch |
| CrawlRun.DeliverKeepsFrontier | crawl.go:125-134 | A report keeps the frontier inside the graph and ingests the reporting page's links |
| CrawlRun.DeliverKeepsInv | crawl.go:118-156 | Every report, from any held page and with any iteration order, keeps the invariant. The invariant says `nbusy` equals the number of held pages (at most `nworkers`), each URL is sent at most once, the sent URLs are exactly the done entries, and a cleared flag means nothing is undone |
| CrawlRun.DoneMovesNewKeys | crawl.go:125-134 | A report moves every newly learned URL from the unknown part of the graph into the undone set |
| CrawlRun.DeliverDecreases | crawl.go:145-160 | Every report strictly decreases a measure built from the unknown URLs, the undone URLs and the held pages, so no run has infinitely many reports |
| CrawlRun.RecheckedStaysLive | crawl.go:145-160 | With the corrected loop, a coordinator that has not exited always has a held page whose report it can wait for |
| CrawlRun.StoppedIsComplete | crawl.go:150-160 | When `run` exits, no page is held, every known URL was dispatched, and the frontier is closed under the graph's links |
| CrawlRun.DeliverStaysWithin | crawl.go:119-138 | A report only adds links of a known page, so any link-closed set holding the seed and the frontier still holds the frontier afterwards |
| CrawlRun.Drive | crawl.go:145-160 | Delivering reports from any live state that satisfies the invariant ends in an exited state that still satisfies it, with the frontier still inside every link-closed set that held it |
| CrawlRun.CompleteRun | crawl.go:72-160 | With the corrected loop, a crawl of any closed finite graph terminates with `nbusy` back at zero. Its frontier is link-closed and lies inside every link-closed set holding the seed, so it is exactly the pages reachable from the seed, and each of them is dispatched exactly once |
| CrawlRun.ReportOfSoleNewPage | crawl.go:118-156 | A report bringing one new URL while nothing else is busy or undone dispatches exactly that URL and leaves the work flag set |
| CrawlRun.LastReportAfterBusyPass | crawl.go:150-156 | The last report after a work-setting pass leaves the loop as written idle but running, while the rechecking loop exits |
| CrawlRun.StallsOnSeedWithOneLeaf | crawl.go:145-160 | On any graph whose seed links only to a leaf page, and with any pool size, the loop as written dispatches the leaf and then, on the leaf's report, neither exits nor holds a page. The rechecking loop exits on the same report |
| CrawlRun.AsWrittenStalls | crawl.go:145-160 | With any pool size, a seed linking to one leaf drives the loop as written into a state with no held page and no exit, so `wait` never returns |
| Matching.CountContained | match.go:39-44 | The counter never exceeds the number of words and equals it iff every word occurs in the data |
| Matching.Match | match.go:38-46 | A page matches iff every configured word occurs as a contiguous run of its bytes |
| Matching.MatchWithoutWords | match.go:45 | With no words, every page matches |
| Matching.MatchDependsOnWordSet | match.go:38-46 | Reordering or repeating words does not change the verdict |
| Matching.MatchAntitone | match.go:38-46 | Dropping words can only turn a mismatch into a match |
| Http.InList | http.go:108-115 | The element is reported found iff it occurs in the list |
| Http.Unskipped | http.go:36-41 | The forwarded cookies are exactly the jar cookies whose names are not in the skip list |
| Http.UnskippedKeepsAll | http.go:34-42 | With no jar cookie named in the skip list, the whole jar is forwarded in jar order |
| Http.SetCookies | http.go:34-42 | The request ends with its own cookies followed by the non-skipped jar cookies, in jar order |
| Http.Resolve | http.go:89-99 | A same-site link takes the base host and scheme and loses its fragment. Its path is the cleaned join of base and link path, and a bare "/" becomes empty |
| Http.Normalize | http.go:69-106 | As written: a parse error is returned, a foreign host is skipped, and every link with a scheme is skipped. A same-site scheme-less link panics on an empty path (so does a link of only a fragment or a query, such as `#top`) and on an empty rendering. Otherwise it is accepted when it renders to a page URL and skipped when the rendering starts with '#'. Nothing else is accepted |
| Http.NormalizeIntended | http.go:69-106 | With `&&`: non-web schemes are skipped, and a same-site link whose web scheme differs from the base's gives "schema is X, it was Y". A same-site link with no scheme or the base's web scheme panics on an empty path or an empty rendering. Otherwise it is accepted when it renders to a page URL and skipped when the rendering starts with '#' |
| Http.SameSiteAbsoluteLink | http.go:80-84 | A same-host absolute http link is skipped as written and accepted with the intended test |
| Http.SchemeMismatch | http.go:82-87 | An https link on an http site is skipped as written and gives the scheme-mismatch error with the intended test |
| Format.FormatInt | lomb24.go:62 | The `%d` rendering is non-empty, is all digits for non-negative numbers, and starts with '-' iff negative |
| Format.DecimalRoundTrip | lomb24.go:62 | Reading back the decimal digits of n gives n |
| Format.FormatIntInjective | lomb24.go:61-63 | Distinct numbers print differently |
| Lomb24.NewLomb24 | lomb24.go:83-95 | The site's start URL, posting URL and page selector are the three constants of `newLomb24` |
| Lomb24.DetailUrl | lomb24.go:61-63 | A listed page's URL is "lombard24.ee page " followed by the `%d` rendering of its number |
| Lomb24.PageUrl | lomb24.go:51-63 | A start page's URL is its site's start URL, and a listed page's is its detail URL |
| Lomb24.PageSite | lomb24.go:24-26 | `site()` of either page kind is the site the page was built with |
| Lomb24.Contents | lomb24.go:47-71 | `contents()` of either page kind is its fetched body |
| Lomb24.DetailPages | lomb24.go:73-75 | A listed page lists no further pages and never fails |
| Lomb24.DetailUrlInjective | lomb24.go:61-63 | Two listed pages have the same URL iff they have the same number |
| Lomb24.StartUrlIsNoDetailUrl | lomb24.go:51-63 | No listed page has the start page's URL |
| Lomb24.StartPages | lomb24.go:28-45 | A goquery error becomes an error; otherwise there is one listed page per selector hit, the i-th numbered i + 1, on the same site |
| Lomb24.StartPagesDistinct | lomb24.go:37-43 | The listed pages have pairwise distinct URLs, none equal to the start URL, all on the start page's site |
| Lomb24.StartOf | lomb24.go:97-104 | `start` fails iff the fetch fails; otherwise it gives the start page with the fetched body, at the start URL |
| Lomb24.Visit | lomb24.go:106-134 | A foreign page is "unexpected page" and a failed fetch is an error. Otherwise the same kind of page comes back, with the same URL and site and the fetched body |
| Lomb24Crawl.LinkUrls | lomb24.go:28-45 | A start page reports the URLs of pages 1..hits and a listed page reports none; an extraction error only on a goquery error |
| Lomb24Crawl.WorkerVisit | crawl.go:32-46 | For a page handed to lombard24.ee's `visit`, the worker's visit fails iff the page is of a foreign type or the fetch fails. It never yields a nil page; otherwise it reports the page's URL, fetched body and listed pages |
| Lomb24Crawl.ListedSetGrows | lomb24.go:37-43 | Listing one more page adds exactly one URL not listed before |
| Lomb24Crawl.ListedSetSize | lomb24.go:37-43 | n listed pages have n distinct URLs |
| Lomb24Crawl.SiteGraphIsWorkersView | crawl.go:29-53 | Each page of the site graph is exactly what a worker reports for that page of lombard24.ee |
| Lomb24Crawl.SiteGraphClosed | lomb24.go:73-75 | Every link of the site leads to a page of the site, since listed pages link nowhere |
| Lomb24Crawl.FrontierIsWholeSite | lomb24.go:37-43 | A frontier holding the start URL and every listed URL, and inside the site, is the start page plus its n listed pages |
| Lomb24Crawl.ExitedSiteCrawlIsWholeSite | crawl.go:93-160 | Whatever the report order and map iteration order, a run on a site listing n pages that has exited has dispatched exactly the start page and the n listed pages, each once |
| Lomb24Crawl.SiteCrawlVisitsEveryListedPage | crawl.go:93-160 | With the corrected loop, crawling lombard24.ee with n listed pages dispatches exactly the start page and the n listed pages, each once |
| Lomb24Crawl.AsWrittenStallsOnSite | crawl.go:145-160 | With the loop as written and any pool size, a start page listing one page leaves `run` idle and running once that page reports; the rechecking loop exits |
| Legacy.Match | main.go:37-45 | main.go's matcher agrees with match.go's: true iff every word is contained |
| Legacy.InList | main.go:112-119 | The element is reported found iff it occurs in the list |
| Legacy.SetCookies | main.go:121-129 | The request keeps its cookies and gains, in jar order, exactly the jar cookies not named in the skip list |
| Legacy.CrawlPages | main.go:100-110 | Page numbers 1, 2, ... below `pages` are requested in order, and `pages` itself never. The first failed request ends the run with "error in page N: ..."; exactly the fetched pages whose body matches are logged, in increasing order |

## Left out

- Goroutines and channels: the command channel `fn`, the `workers` channel and `fin` are modelled by delivering one command at a time. Any interleaving of reports is allowed because any held page may report next. Blocking on a full channel is not modelled.
- `wait` and `close(c.workers)`: modelled by the `stopped` flag. A stall is a state that is not stopped and has no held page, because then no command can ever arrive.
- HTTP: `browser.get`, `request`, `finalize`, `newBrowser`, `userAgent` and the cookie jar's own logic. A fetch outcome is a parameter (`fetched`, `fetch`), and the jar's cookies for the root URL are a parameter.
- goquery: the selector hit count of `lomb24startpage.pages` and `countPages` is a parameter (`hits`).
- The `URL` record of `normalize` has no query, user or opaque field, while `URL.String` renders the query. In the model, two links that differ only in their query therefore normalize to the same string.
- `url.Parse`, `path.Clean` and `URL.String` in `normalize` are parameters. A Go index panic on an empty path or an empty rendering is the explicit outcome `Crash`.
- `entry.page` is represented by the page's URL, and `Crawl.Visit` is the worker's outcome for that URL.
- The matcher's sink (`matcher.run`, `stop`, `put`) is the list of URLs handed to it. Logging (`log.Printf`) is not modelled.
- `newLomb24` cannot fail, because its URL constant parses. The `root` URL field is not modelled.
- The request body, headers and `setCookies` call of the detail-page POST in `lomb24.visit` are not modelled; only the response matters.
- main.go's `prepare`, `countPages`, `get`, `readBody` (gzip) and `main`, and crawl.go's commented-out `main`: I/O and wiring.
- `nworkers < 1`: the whole-run lemmas require at least one worker. With zero workers, `sched` sends one page anyway and blocks on the unbuffered channel. A negative count panics in `make(chan page, n)` (crawl.go:20).
- main.go's `lomb24.match` (main.go:47-51): it builds an error value with `fmt.Errorf` and drops it, so the call has no effect whatever the body and words, and there is nothing to model.
- CrawlRun.CompleteRun, CrawlRun.Drive: proved for the corrected loop only, because the loop as written can stall (see Findings).

## Findings

| source | as written | input that shows it | evidently intended | confidence | as-written member | corrected member |
|---|---|---|---|---|---|---|
| crawl.go:145-160 | `run` tests for termination only before the reschedule. If the last report arrives while `hasWork` is still set by the pass that dispatched the last page, the test fails and `sched` finds nothing. The loop then waits on `fn` forever, with no worker busy, and `wait` never returns | A seed page linking to one leaf page, with any pool size. In the same way, a lombard24.ee start page listing one page | Repeat the stop test after `sched`, so the loop exits whenever it leaves no work and no busy worker | not executed | CrawlRun.StallsOnSeedWithOneLeaf | Crawl.StepRechecked |
| http.go:82 | `u.Scheme != "http" \|\| u.Scheme != "https"` is true for every scheme, so every link with a scheme is skipped. Even a same-site http link is skipped, and the scheme-mismatch error is unreachable | base `http://lombard24.ee/`, link `http://lombard24.ee/x` | `&&`: skip only non-web schemes | not executed | Http.SameSiteAbsoluteLink | Http.NormalizeIntended |

=== FILE: crawl.dfy ===
/** The crawl frontier coordinator of crawl.go. Each command the `run`
    goroutine receives is a sequential transition over the URL map, the
    busy-worker counter and the pending-work flag; the pages pushed on the
    `workers` channel are returned as a sequence. Map iteration order is an
    explicit parameter: any ordering of the keys. */
module Crawl {
  import opened Prelude
  import Matching

  // ---------------------------------------------------------------------
  // Worker (crawl.go:29-53)

  /** What a worker learns about one page: `s.visit` failed, returned a nil
      page, or returned a page whose `pages()` either failed or listed the
      URLs of its outgoing pages. */
  datatype Visit =
    | VisitFailed(error: string)
    | NoPage
    | Visited(url: Url, contents: bytes, pages: Result<seq<Url>>)

  /** The argument the worker passes to `c.done`: nil (empty) unless the
      visit succeeded and the links were extracted. */
  function ReportOf(v: Visit): (links: seq<Url>)
    ensures links != [] ==> v.Visited? && v.pages == Ok(links)
    ensures v.Visited? && v.pages.Ok? ==> links == v.pages.value
  {
    match v
    case VisitFailed(_) => []
    case NoPage => []
    case Visited(_, _, pages) =>
      match pages
      case Err(_) => []
      case Ok(ps) => ps
  }

  /** The worker's effect for one page: the `done` report and the URL handed
      to the matcher's sink, if any. */
  datatype Task = Task(report: seq<Url>, put: Option<Url>)

  function Work(m: Matching.Matcher, v: Visit): (t: Task)
    ensures t.report == ReportOf(v)
    ensures t.put.Some? <==> v.Visited? && Matching.Match(m, v.contents)
    ensures t.put.Some? ==> t.put.value == v.url
  {
    match v
    case VisitFailed(_) => Task([], None)
    case NoPage => Task([], None)
    case Visited(url, contents, _) =>
      Task(ReportOf(v), if Matching.Match(m, contents) then Some(url) else None)
  }

  /** The URLs a worker hands to the sink for the pages it took, in the
      order taken: one per visited page whose contents match. */
  function Sunk(m: Matching.Matcher, taken: seq<Visit>): (puts: seq<Url>)
    ensures |puts| <= |taken|
    ensures forall u :: u in puts <==> exists i | 0 <= i < |taken| :: Work(m, taken[i]).put == Some(u)
    decreases |taken|
  {
    if taken == [] then []
    else
      var last := Work(m, taken[|taken| - 1]);
      var init := taken[..|taken| - 1];
      assert forall i | 0 <= i < |init| :: init[i] == taken[i];
      Sunk(m, init) + (if last.put.Some? then [last.put.value] else [])
  }

  /** The `for page := range ch` loop of one worker over the pages it took:
      exactly one `done` report per page, and one sink hand-off per visited
      page whose contents match, in the order taken. */
  method Serve(m: Matching.Matcher, taken: seq<Visit>) returns (reports: seq<seq<Url>>, puts: seq<Url>)
    ensures |reports| == |taken|
    ensures forall i | 0 <= i < |taken| :: reports[i] == ReportOf(taken[i])
    ensures puts == Sunk(m, taken)
    ensures forall u :: u in puts <==> exists i | 0 <= i < |taken| :: Work(m, taken[i]).put == Some(u)
  {
    reports := [];
    puts := [];
    for n := 0 to |taken|
      invariant |reports| == n
      invariant forall i | 0 <= i < n :: reports[i] == ReportOf(taken[i])
      invariant puts == Sunk(m, taken[..n])
    {
      assert taken[..n + 1][..n] == taken[..n];
      var t := Work(m, taken[n]);
      if t.put.Some? {
        puts := puts + [t.put.value];
      }
      reports := reports + [t.report];
    }
    assert taken[..|taken|] == taken;
  }

  // ---------------------------------------------------------------------
  // Coordinator state (crawl.go:56-84)

  /** `crawler`: `urls` maps every known URL to its entry's `done` flag. */
  datatype Crawler = Crawler(urls: map<Url, bool>, nworkers: int, nbusy: int, hasWork: bool)

  /** `newCrawler`: the start page is the only entry, not yet dispatched. */
  function NewCrawler(nworkers: int, start: Url): (c: Crawler)
    ensures c.urls.Keys == {start} && !c.urls[start]
    ensures c.nworkers == nworkers && c.nbusy == 0 && !c.hasWork
  {
    Crawler(map[start := false], nworkers, 0, false)
  }

  /** URLs known but not yet dispatched. */
  function Undone(urls: map<Url, bool>): set<Url> {
    set k | k in urls && !urls[k]
  }

  predicate AllVisited(urls: map<Url, bool>) {
    forall k | k in urls :: urls[k]
  }

  /** One possible iteration order of a Go map with these keys. */
  predicate IsKeyOrder(order: seq<Url>, keys: set<Url>) {
    && Distinct(order)
    && (forall k | k in order :: k in keys)
    && (forall k | k in keys :: k in order)
  }

  // ---------------------------------------------------------------------
  // sched (crawl.go:93-109)

  /** The crawler after a scheduling pass and the pages it pushed on the
      `workers` channel, in push order. */
  datatype Pass = Pass(crawler: Crawler, sent: seq<Url>)

  /** The loop of `sched` from some point of the iteration on; `found` is the
      local `hasWork` so far. */
  function SchedFrom(c: Crawler, order: seq<Url>, found: bool): (p: Pass)
    requires Distinct(order) && forall i | 0 <= i < |order| :: order[i] in c.urls
    ensures p.crawler.urls.Keys == c.urls.Keys
    ensures p.crawler.nworkers == c.nworkers
    ensures p.crawler.nbusy == c.nbusy + |p.sent|
    ensures Distinct(p.sent)
    ensures forall k | k in p.sent :: k in order && !c.urls[k]
    ensures forall k | k in c.urls :: p.crawler.urls[k] == (c.urls[k] || k in p.sent)
    ensures p.crawler.hasWork == (found || |p.sent| > 0)
    ensures c.nbusy < c.nworkers ==> p.crawler.nbusy <= c.nworkers
    ensures p.crawler.nbusy >= c.nworkers || forall k | k in order :: p.crawler.urls[k]
    ensures forall k | k in order && !c.urls[k] :: |p.sent| > 0
    decreases |order|
  {
    if |order| == 0 then Pass(c.(hasWork := found), [])
    else
      var k := order[0];
      if c.urls[k] then SchedFrom(c, order[1..], found)
      else
        var c1 := c.(urls := c.urls[k := true], nbusy := c.nbusy + 1);
        if c1.nbusy >= c1.nworkers then Pass(c1.(hasWork := true), [k])
        else
          var rest := SchedFrom(c1, order[1..], true);
          Pass(rest.crawler, [k] + rest.sent)
  }

  /** `sched`: dispatch undone entries in iteration order until the workers
      are all busy or the entries run out. */
  function Sched(c: Crawler, order: seq<Url>): (p: Pass)
    requires IsKeyOrder(order, c.urls.Keys)
    ensures p.crawler.urls.Keys == c.urls.Keys
    ensures p.crawler.nworkers == c.nworkers
    ensures p.crawler.nbusy == c.nbusy + |p.sent|
    ensures Distinct(p.sent)
    ensures forall k | k in p.sent :: k in c.urls && !c.urls[k]
    ensures forall k | k in c.urls :: p.crawler.urls[k] == (c.urls[k] || k in p.sent)
    ensures p.crawler.hasWork <==> exists k | k in c.urls :: !c.urls[k]
    ensures p.crawler.hasWork <==> |p.sent| > 0
    ensures c.nbusy < c.nworkers ==> p.crawler.nbusy <= c.nworkers
    ensures p.crawler.nbusy >= c.nworkers || AllVisited(p.crawler.urls)
  {
    var p := SchedFrom(c, order, false);
    assert |p.sent| > 0 ==> p.sent[0] in p.sent;
    assert forall k | k in c.urls :: k in order;
    p
  }

  /** A pass removes exactly the pages it sent from the undone set. */
  lemma SchedShrinksUndone(c: Crawler, order: seq<Url>)
    requires IsKeyOrder(order, c.urls.Keys)
    ensures Undone(Sched(c, order).crawler.urls) == Undone(c.urls) - Elements(Sched(c, order).sent)
    ensures Elements(Sched(c, order).sent) <= Undone(c.urls)
    ensures |Undone(Sched(c, order).crawler.urls)| + |Sched(c, order).sent| == |Undone(c.urls)|
  {
    var p := Sched(c, order);
    var sent := Elements(p.sent);
    DistinctCardinality(p.sent);
    assert Undone(c.urls) == Undone(p.crawler.urls) + sent;
  }

  // ---------------------------------------------------------------------
  // done (crawl.go:118-140)

  /** The URL map after ingesting links, and whether any key was new. */
  datatype Ingested = Ingested(urls: map<Url, bool>, inserted: bool)

  /** The `for _, p := range ps` loop of `done`. */
  function Ingest(urls: map<Url, bool>, links: seq<Url>): (r: Ingested)
    ensures forall k :: k in r.urls <==> k in urls || k in links
    ensures forall k | k in urls :: r.urls[k] == urls[k]
    ensures forall k | k in r.urls && k !in urls :: !r.urls[k]
    ensures r.inserted <==> exists i | 0 <= i < |links| :: links[i] !in urls
    decreases |links|
  {
    if |links| == 0 then Ingested(urls, false)
    else
      var url := links[0];
      var isNew := url !in urls;
      var rest := Ingest(if isNew then urls[url := false] else urls, links[1..]);
      assert forall i | 0 < i < |links| :: links[i] == links[1..][i - 1];
      Ingested(rest.urls, isNew || rest.inserted)
  }

  /** `done(ps)` as applied by the coordinator: one worker fewer is busy and
      every link not yet known becomes a new undone entry. */
  function Done(c: Crawler, links: seq<Url>): (d: Crawler)
    ensures d.nbusy == c.nbusy - 1
    ensures d.nworkers == c.nworkers
    ensures forall k :: k in d.urls <==> k in c.urls || k in links
    ensures forall k | k in c.urls :: d.urls[k] == c.urls[k]
    ensures forall k | k in d.urls && k !in c.urls :: !d.urls[k]
    ensures d.hasWork <==> c.hasWork || exists i | 0 <= i < |links| :: links[i] !in c.urls
    ensures links == [] ==> d.urls == c.urls && d.hasWork == c.hasWork
  {
    var c1 := c.(nbusy := c.nbusy - 1);
    if |links| == 0 then c1
    else
      var r := Ingest(c.urls, links);
      c1.(urls := r.urls, hasWork := if r.inserted then true else c1.hasWork)
  }

  /** Reporting a URL that is already known, however often, adds nothing. */
  lemma DoneIdempotent(c: Crawler, links: seq<Url>)
    ensures Done(Done(c, links), links).urls == Done(c, links).urls
    ensures Done(Done(c, links), links).hasWork == Done(c, links).hasWork
  {
    var d := Done(c, links);
    var e := Done(d, links);
    assert e.urls.Keys == d.urls.Keys;
  }

  /** Only the set of reported URLs matters to the map, not their order or
      multiplicity. */
  lemma DoneDependsOnLinkSet(c: Crawler, a: seq<Url>, b: seq<Url>)
    requires forall u :: u in a <==> u in b
    ensures Done(c, a) == Done(c, b)
  {
    var da := Done(c, a);
    var db := Done(c, b);
    assert da.urls.Keys == db.urls.Keys;
    if exists i | 0 <= i < |a| :: a[i] !in c.urls {
      var i :| 0 <= i < |a| && a[i] !in c.urls;
      assert a[i] in b;
    }
  }

  // ---------------------------------------------------------------------
  // run (crawl.go:145-160)

  /** The closures sent on `c.fn`: the initial `c.sched` (with the
      iteration order it will use) and the body of `done(ps)`. */
  datatype Command = Schedule(order: seq<Url>) | Report(links: seq<Url>)

  predicate Admissible(c: Crawler, cmd: Command) {
    cmd.Schedule? ==> IsKeyOrder(cmd.order, c.urls.Keys)
  }

  /** `fn()`. */
  function Apply(c: Crawler, cmd: Command): (p: Pass)
    requires Admissible(c, cmd)
    ensures cmd.Report? ==> p.crawler == Done(c, cmd.links) && p.sent == []
    ensures cmd.Schedule? ==> p.crawler.nbusy == c.nbusy + |p.sent|
    ensures cmd.Schedule? ==> (p.crawler.hasWork <==> exists k | k in c.urls :: !c.urls[k])
  {
    match cmd
    case Schedule(order) => Sched(c, order)
    case Report(links) => Pass(Done(c, links), [])
  }

  /** The outcome of one iteration of `run`: the new state, the pages pushed
      to workers during the iteration, and whether the loop exited. */
  datatype Turn = Turn(crawler: Crawler, sent: seq<Url>, stopped: bool)

  /** One iteration of `run` as written: apply the command, stop if there is
      no work and nobody is busy, otherwise reschedule if there is work. The
      stop test is not repeated after the reschedule. */
  function Step(c: Crawler, cmd: Command, order: seq<Url>): (t: Turn)
    requires Admissible(c, cmd) && IsKeyOrder(order, Apply(c, cmd).crawler.urls.Keys)
    ensures t.crawler.nworkers == c.nworkers
    ensures t.crawler.urls.Keys == Apply(c, cmd).crawler.urls.Keys
    ensures t.stopped <==> !Apply(c, cmd).crawler.hasWork && Apply(c, cmd).crawler.nbusy == 0
    ensures t.stopped ==> !t.crawler.hasWork && t.crawler.nbusy == 0
    ensures !Apply(c, cmd).crawler.hasWork ==>
      t.crawler == Apply(c, cmd).crawler && t.sent == Apply(c, cmd).sent
    ensures Apply(c, cmd).crawler.hasWork ==>
      && t.crawler == Sched(Apply(c, cmd).crawler, order).crawler
      && t.sent == Apply(c, cmd).sent + Sched(Apply(c, cmd).crawler, order).sent
  {
    var p := Apply(c, cmd);
    if !p.crawler.hasWork && p.crawler.nbusy == 0 then Turn(p.crawler, p.sent, true)
    else if p.crawler.hasWork then
      var q := Sched(p.crawler, order);
      Turn(q.crawler, p.sent + q.sent, false)
    else Turn(p.crawler, p.sent, false)
  }

  /** One iteration of `run` with the stop test repeated after the
      reschedule: the loop exits exactly when the state it leaves behind has
      no work and no busy worker. */
  function StepRechecked(c: Crawler, cmd: Command, order: seq<Url>): (t: Turn)
    requires Admissible(c, cmd) && IsKeyOrder(order, Apply(c, cmd).crawler.urls.Keys)
    ensures t.crawler.nworkers == c.nworkers
    ensures t.crawler.urls.Keys == Apply(c, cmd).crawler.urls.Keys
    ensures t.stopped <==> !t.crawler.hasWork && t.crawler.nbusy == 0
    ensures !Apply(c, cmd).crawler.hasWork ==>
      t.crawler == Apply(c, cmd).crawler && t.sent == Apply(c, cmd).sent
    ensures Apply(c, cmd).crawler.hasWork ==>
      && t.crawler == Sched(Apply(c, cmd).crawler, order).crawler
      && t.sent == Apply(c, cmd).sent + Sched(Apply(c, cmd).crawler, order).sent
  {
    var p := Apply(c, cmd);
    if !p.crawler.hasWork && p.crawler.nbusy == 0 then Turn(p.crawler, p.sent, true)
    else if p.crawler.hasWork then
      var q := Sched(p.crawler, order);
      Turn(q.crawler, p.sent + q.sent, !q.crawler.hasWork && q.crawler.nbusy == 0)
    else Turn(p.crawler, p.sent, false)
  }

  /** The loop as written can leave an idle coordinator running: the last
      report arrives while `hasWork` still holds from the pass that
      dispatched it, so the stop test fails, and the reschedule then finds
      nothing. */
  lemma StepLeavesIdleRunning()
    ensures
      var c := Crawler(map["S" := true, "A" := true], 2, 1, true);
      var t := Step(c, Report([]), ["S", "A"]);
      && !t.stopped && !t.crawler.hasWork && t.crawler.nbusy == 0 && t.sent == []
      && StepRechecked(c, Report([]), ["S", "A"]).stopped
  {
    var c := Crawler(map["S" := true, "A" := true], 2, 1, true);
    assert c.urls.Keys == {"S", "A"};
    assert Undone(c.urls) == {};
  }
}

=== FILE: crawl_run.dfy ===
/** Whole crawl runs: the coordinator of crawl.go together with the pages held
    by the workers, driven by a finite link graph. A run starts with
    `newCrawler` and its initial `c.sched` command; afterwards every command
    is the `done` report of some page a worker holds, in any order, and every
    scheduling pass may iterate the map in any order. */
module CrawlRun {
  import opened Prelude
  import opened Crawl

  /** Which `run` loop drives the coordinator. */
  datatype Loop = AsWritten | Rechecked

  function RunStep(loop: Loop, c: Crawler, cmd: Command, order: seq<Url>): Turn
    requires Admissible(c, cmd) && IsKeyOrder(order, Apply(c, cmd).crawler.urls.Keys)
  {
    if loop.AsWritten? then Step(c, cmd, order) else StepRechecked(c, cmd, order)
  }

  /** What the worker reports for each page, by URL. */
  type Graph = map<Url, Visit>

  /** Every URL a page can report is itself a page of the graph. */
  ghost predicate Closed(g: Graph) {
    forall k | k in g :: forall l | l in ReportOf(g[k]) :: l in g
  }

  /** The coordinator, the URLs of the pages sent to workers and not yet
      reported (in the channel or being worked on), every URL ever sent, and
      whether `run` has exited. */
  datatype System = System(crawler: Crawler, pending: seq<Url>, dispatched: seq<Url>, stopped: bool)

  /** `newCrawler(nworkers, seed)` followed by its first command, `c.sched`.
      A map with one key has one iteration order. */
  function Boot(loop: Loop, nworkers: int, seed: Url): System {
    var c := NewCrawler(nworkers, seed);
    assert c.urls.Keys == {seed};
    var t := RunStep(loop, c, Schedule([seed]), [seed]);
    System(t.crawler, t.sent, t.sent, t.stopped)
  }

  /** The worker holding `pending[i]` reports, and the coordinator's next
      scheduling pass iterates in `order`. */
  ghost predicate CanDeliver(s: System, g: Graph, i: int, order: seq<Url>) {
    && !s.stopped
    && 0 <= i < |s.pending|
    && s.pending[i] in g
    && IsKeyOrder(order, Done(s.crawler, ReportOf(g[s.pending[i]])).urls.Keys)
  }

  function Deliver(loop: Loop, s: System, g: Graph, i: int, order: seq<Url>): System
    requires CanDeliver(s, g, i, order)
  {
    var t := RunStep(loop, s.crawler, Report(ReportOf(g[s.pending[i]])), order);
    System(t.crawler, RemoveAt(s.pending, i) + t.sent, s.dispatched + t.sent, t.stopped)
  }

  // ---------------------------------------------------------------------
  // The invariant

  /** The busy counter is exact and bounded by the pool size. */
  ghost predicate Accounting(s: System) {
    && s.crawler.nworkers >= 1
    && 0 <= s.crawler.nbusy <= s.crawler.nworkers
    && s.crawler.nbusy == |s.pending|
  }

  /** Each URL is sent at most once; the sent URLs are exactly the entries
      marked done; held pages are sent pages. */
  ghost predicate SentOnce(s: System) {
    && Distinct(s.dispatched)
    && (forall k :: k in s.dispatched <==> k in s.crawler.urls && s.crawler.urls[k])
    && Distinct(s.pending)
    && (forall k | k in s.pending :: k in s.dispatched)
  }

  /** A cleared work flag means nothing is left to dispatch. */
  ghost predicate FlagSound(s: System) {
    !s.crawler.hasWork ==> AllVisited(s.crawler.urls)
  }

  /** The frontier holds the seed and stays within the graph, and every page
      already reported has had its links ingested. */
  ghost predicate Frontier(s: System, g: Graph, seed: Url) {
    && seed in s.crawler.urls
    && (forall k | k in s.crawler.urls :: k in g)
    && (forall k | k in s.dispatched && k !in s.pending ::
          k in g && forall l | l in ReportOf(g[k]) :: l in s.crawler.urls)
  }

  ghost predicate Inv(s: System, g: Graph, seed: Url) {
    && Accounting(s)
    && SentOnce(s)
    && FlagSound(s)
    && Frontier(s, g, seed)
    && (s.stopped ==> s.crawler.nbusy == 0 && !s.crawler.hasWork)
  }

  /** A running coordinator has a report to wait for. */
  ghost predicate Live(s: System) {
    s.stopped || |s.pending| > 0
  }

  /** A pass over a map with a single undone entry sends exactly that entry. */
  lemma SchedSendsSoleUndone(c: Crawler, order: seq<Url>, u: Url)
    requires IsKeyOrder(order, c.urls.Keys)
    requires u in c.urls && !c.urls[u]
    requires forall k | k in c.urls && k != u :: c.urls[k]
    ensures Sched(c, order).sent == [u]
  {
    var p := Sched(c, order);
    assert |p.sent| > 0;
    assert forall k | k in p.sent :: k == u;
    assert Elements(p.sent) == {u} by {
      assert p.sent[0] in Elements(p.sent);
    }
    DistinctCardinality(p.sent);
  }

  lemma BootEstablishes(loop: Loop, nworkers: int, seed: Url, g: Graph)
    requires nworkers >= 1 && seed in g
    ensures Inv(Boot(loop, nworkers, seed), g, seed)
    ensures !Boot(loop, nworkers, seed).stopped
    ensures Boot(loop, nworkers, seed).pending == [seed]
    ensures Boot(loop, nworkers, seed).crawler.urls == map[seed := true]
  {
    var c := NewCrawler(nworkers, seed);
    assert c.urls.Keys == {seed};
    SchedSendsSoleUndone(c, [seed], seed);
    var p := Sched(c, [seed]);
    var q := Sched(p.crawler, [seed]);
    assert q.sent == [];
  }

  // ---------------------------------------------------------------------
  // Preservation

  /** After a report the iteration either leaves `done`'s result as it is or
      runs one scheduling pass on it. */
  lemma TurnShape(loop: Loop, c: Crawler, links: seq<Url>, order: seq<Url>)
    requires IsKeyOrder(order, Done(c, links).urls.Keys)
    ensures
      var d := Done(c, links);
      var t := RunStep(loop, c, Report(links), order);
      || (t.crawler == d && t.sent == [] && (t.stopped ==> !d.hasWork))
      || (d.hasWork && t.crawler == Sched(d, order).crawler && t.sent == Sched(d, order).sent)
  {
    var d := Done(c, links);
    assert Apply(c, Report(links)) == Pass(d, []);
    if d.hasWork {
      assert [] + Sched(d, order).sent == Sched(d, order).sent;
    }
  }

  /** A report keeps the busy counter equal to the number of held pages and
      within the pool. */
  lemma DeliverKeepsAccounting(loop: Loop, s: System, g: Graph, seed: Url, i: int, order: seq<Url>)
    requires Inv(s, g, seed) && CanDeliver(s, g, i, order)
    ensures Accounting(Deliver(loop, s, g, i, order))
  {
    var links := ReportOf(g[s.pending[i]]);
    TurnShape(loop, s.crawler, links, order);
  }

  /** A report sends only undone URLs, so no URL is sent twice and the sent
      URLs stay exactly the entries marked done. */
  lemma DeliverSendsOnce(loop: Loop, s: System, g: Graph, seed: Url, i: int, order: seq<Url>)
    requires Inv(s, g, seed) && CanDeliver(s, g, i, order)
    ensures SentOnce(Deliver(loop, s, g, i, order))
  {
    var c := s.crawler;
    var links := ReportOf(g[s.pending[i]]);
    var d := Done(c, links);
    var t := RunStep(loop, c, Report(links), order);
    var rest := RemoveAt(s.pending, i);
    TurnShape(loop, c, links, order);
    assert forall u | u in t.sent :: u in d.urls && !d.urls[u];
    assert forall u | u in t.sent :: u !in s.dispatched;
    assert forall u | u in t.sent :: u !in rest;
    DistinctConcat(s.dispatched, t.sent);
    DistinctConcat(rest, t.sent);
  }

  /** A report leaves the work flag cleared only when nothing is undone. */
  lemma DeliverKeepsFlagSound(loop: Loop, s: System, g: Graph, seed: Url, i: int, order: seq<Url>)
    requires Inv(s, g, seed) && CanDeliver(s, g, i, order)
    ensures FlagSound(Deliver(loop, s, g, i, order))
  {
    TurnShape(loop, s.crawler, ReportOf(g[s.pending[i]]), order);
  }

  /** A report keeps the frontier inside the graph and ingests the reporting
      page's links. */
  lemma DeliverKeepsFrontier(loop: Loop, s: System, g: Graph, seed: Url, i: int, order: seq<Url>)
    requires Closed(g) && Inv(s, g, seed) && CanDeliver(s, g, i, order)
    ensures Frontier(Deliver(loop, s, g, i, order), g, seed)
  {
    var c := s.crawler;
    var links := ReportOf(g[s.pending[i]]);
    var t := RunStep(loop, c, Report(links), order);
    TurnShape(loop, c, links, order);
    assert forall l | l in links :: l in g;
    assert forall u | u in t.sent :: u in Done(c, links).urls;
  }

  /** Every report keeps the invariant, whichever page reports and whatever
      order the next pass iterates in. */
  lemma DeliverKeepsInv(loop: Loop, s: System, g: Graph, seed: Url, i: int, order: seq<Url>)
    requires Closed(g) && Inv(s, g, seed) && CanDeliver(s, g, i, order)
    ensures Inv(Deliver(loop, s, g, i, order), g, seed)
  {
    DeliverKeepsAccounting(loop, s, g, seed, i, order);
    DeliverSendsOnce(loop, s, g, seed, i, order);
    DeliverKeepsFlagSound(loop, s, g, seed, i, order);
    DeliverKeepsFrontier(loop, s, g, seed, i, order);
    TurnShape(loop, s.crawler, ReportOf(g[s.pending[i]]), order);
  }

  // ---------------------------------------------------------------------
  // Progress

  /** Three units for each graph URL not yet known, two for each known but
      undispatched one, one for each page held by a worker. */
  ghost function Measure(s: System, g: Graph): nat {
    3 * |g.Keys - s.crawler.urls.Keys| + 2 * |Undone(s.crawler.urls)| + |s.pending|
  }

  /** Growing a set of known URLs within a universe moves the new ones out of
      the unknown part. */
  lemma KnownGrows(before: set<Url>, after: set<Url>, universe: set<Url>)
    requires before <= after <= universe
    ensures |universe - after| + |after - before| == |universe - before|
  {
    assert universe - before == (universe - after) + (after - before);
    DisjointUnionSize(universe - before, universe - after, after - before);
  }

  /** Growing a map by undone entries adds the new keys to the undone set. */
  lemma UndoneGrows(before: map<Url, bool>, after: map<Url, bool>)
    requires before.Keys <= after.Keys
    requires forall k | k in before :: after[k] == before[k]
    requires forall k | k in after && k !in before :: !after[k]
    ensures |Undone(after)| == |Undone(before)| + |after.Keys - before.Keys|
  {
    var added := after.Keys - before.Keys;
    assert Undone(after) == Undone(before) + added;
    DisjointUnionSize(Undone(after), Undone(before), added);
  }

  /** `done` moves the new URLs from "unknown" to "undone". */
  lemma DoneMovesNewKeys(c: Crawler, links: seq<Url>, g: Graph)
    requires forall k | k in c.urls :: k in g
    requires forall l | l in links :: l in g
    ensures
      var d := Done(c, links);
      var added := d.urls.Keys - c.urls.Keys;
      && |g.Keys - d.urls.Keys| + |added| == |g.Keys - c.urls.Keys|
      && |Undone(d.urls)| == |Undone(c.urls)| + |added|
  {
    var d := Done(c, links);
    KnownGrows(c.urls.Keys, d.urls.Keys, g.Keys);
    UndoneGrows(c.urls, d.urls);
  }

  lemma DisjointUnionSize(whole: set<Url>, a: set<Url>, b: set<Url>)
    requires whole == a + b && a * b == {}
    ensures |whole| == |a| + |b|
  {
  }

  /** Every report strictly decreases the measure, so no run delivers
      forever. */
  lemma DeliverDecreases(loop: Loop, s: System, g: Graph, seed: Url, i: int, order: seq<Url>)
    requires Closed(g) && Inv(s, g, seed) && CanDeliver(s, g, i, order)
    ensures Measure(Deliver(loop, s, g, i, order), g) < Measure(s, g)
  {
    var c := s.crawler;
    var links := ReportOf(g[s.pending[i]]);
    var d := Done(c, links);
    TurnShape(loop, c, links, order);
    DoneMovesNewKeys(c, links, g);
    if d.hasWork {
      SchedShrinksUndone(d, order);
    }
  }

  /** With the stop test repeated, a coordinator that keeps running always
      has a busy worker whose report will arrive. */
  lemma RecheckedStaysLive(s: System, g: Graph, seed: Url, i: int, order: seq<Url>)
    requires Closed(g) && Inv(s, g, seed) && CanDeliver(s, g, i, order)
    ensures Live(Deliver(Rechecked, s, g, i, order))
  {
    DeliverKeepsInv(Rechecked, s, g, seed, i, order);
    TurnShape(Rechecked, s.crawler, ReportOf(g[s.pending[i]]), order);
  }

  /** When `run` exits, every known URL was dispatched and reported, so the
      frontier is closed under the graph's links. */
  lemma StoppedIsComplete(s: System, g: Graph, seed: Url)
    requires Inv(s, g, seed) && s.stopped
    ensures s.pending == []
    ensures AllVisited(s.crawler.urls)
    ensures forall k | k in s.crawler.urls :: forall l | l in ReportOf(g[k]) :: l in s.crawler.urls
    ensures |s.dispatched| == |s.crawler.urls|
  {
    assert Elements(s.dispatched) == s.crawler.urls.Keys;
    DistinctCardinality(s.dispatched);
  }

  // ---------------------------------------------------------------------
  // Complete runs

  /** Some iteration order of a set of keys. */
  ghost function KeyOrder(keys: set<Url>): (order: seq<Url>)
    ensures IsKeyOrder(order, keys)
    decreases keys
  {
    if keys == {} then []
    else
      var k :| k in keys;
      [k] + KeyOrder(keys - {k})
  }

  /** A set of URLs holding the seed and every link of each of its pages.
      The pages reachable from the seed lie in every such set, and the least
      such set is exactly the reachable pages. */
  ghost predicate LinkClosed(x: set<Url>, g: Graph, seed: Url) {
    && seed in x
    && forall k | k in x && k in g :: forall l | l in ReportOf(g[k]) :: l in x
  }

  /** A report only adds the links of a page already known, so the frontier
      never leaves a link-closed set that holds it. */
  lemma DeliverStaysWithin(loop: Loop, s: System, g: Graph, seed: Url, i: int, order: seq<Url>)
    requires Inv(s, g, seed) && CanDeliver(s, g, i, order)
    ensures forall x: set<Url> | LinkClosed(x, g, seed) && s.crawler.urls.Keys <= x ::
              Deliver(loop, s, g, i, order).crawler.urls.Keys <= x
  {
    var u := s.pending[i];
    var links := ReportOf(g[u]);
    assert u in s.dispatched;
    TurnShape(loop, s.crawler, links, order);
    var keys := Deliver(loop, s, g, i, order).crawler.urls.Keys;
    assert keys == Done(s.crawler, links).urls.Keys;
    forall x: set<Url> | LinkClosed(x, g, seed) && s.crawler.urls.Keys <= x
      ensures keys <= x
    {
      assert u in x;
      forall k | k in keys
        ensures k in x
      {
        if k !in s.crawler.urls {
          assert k in links;
        }
      }
    }
  }

  /** Keep delivering the oldest held page until `run` exits. The frontier
      stays inside every link-closed set that held it at the start. */
  ghost function Drive(s: System, g: Graph, seed: Url): (r: System)
    requires Closed(g) && Inv(s, g, seed) && Live(s)
    ensures Inv(r, g, seed) && r.stopped
    ensures forall x: set<Url> | LinkClosed(x, g, seed) && s.crawler.urls.Keys <= x ::
              r.crawler.urls.Keys <= x
    decreases Measure(s, g)
  {
    if s.stopped then s
    else
      var order := KeyOrder(Done(s.crawler, ReportOf(g[s.pending[0]])).urls.Keys);
      DeliverKeepsInv(Rechecked, s, g, seed, 0, order);
      DeliverStaysWithin(Rechecked, s, g, seed, 0, order);
      DeliverDecreases(Rechecked, s, g, seed, 0, order);
      RecheckedStaysLive(s, g, seed, 0, order);
      Drive(Deliver(Rechecked, s, g, 0, order), g, seed)
  }

  /** A whole crawl of a finite closed graph with the rechecking loop: it
      stops, with exactly the pages reachable from the seed (the least
      link-closed set holding it) dispatched once each and nobody busy. */
  ghost function CompleteRun(g: Graph, seed: Url, nworkers: int): (r: System)
    requires Closed(g) && seed in g && nworkers >= 1
    ensures r.stopped && Inv(r, g, seed)
    ensures r.pending == [] && r.crawler.nbusy == 0
    ensures seed in r.crawler.urls && AllVisited(r.crawler.urls)
    ensures forall k | k in r.crawler.urls :: k in g && forall l | l in ReportOf(g[k]) :: l in r.crawler.urls
    ensures LinkClosed(r.crawler.urls.Keys, g, seed)
    ensures forall x: set<Url> | LinkClosed(x, g, seed) :: r.crawler.urls.Keys <= x
    ensures Distinct(r.dispatched) && |r.dispatched| == |r.crawler.urls|
  {
    BootEstablishes(Rechecked, nworkers, seed, g);
    assert Boot(Rechecked, nworkers, seed).crawler.urls.Keys == {seed};
    var r := Drive(Boot(Rechecked, nworkers, seed), g, seed);
    StoppedIsComplete(r, g, seed);
    r
  }

  // ---------------------------------------------------------------------
  // The loop as written can stall

  /** A seed page linking to one leaf page. */
  function SeedAndLeaf(): Graph {
    map["S" := Visited("S", [], Ok(["A"])), "A" := Visited("A", [], Ok([]))]
  }

  /** A report bringing a single new URL while everything else is visited
      and nobody else is busy: the new page is dispatched, and the pass that
      dispatched it leaves the work flag set. */
  lemma ReportOfSoleNewPage(loop: Loop, s: System, g: Graph, seed: Url, order: seq<Url>, u: Url)
    requires Closed(g) && Inv(s, g, seed) && CanDeliver(s, g, 0, order)
    requires |s.pending| == 1 && AllVisited(s.crawler.urls)
    requires ReportOf(g[s.pending[0]]) == [u] && u !in s.crawler.urls
    ensures
      var s1 := Deliver(loop, s, g, 0, order);
      && Inv(s1, g, seed) && !s1.stopped && s1.pending == [u]
      && s1.crawler.hasWork && AllVisited(s1.crawler.urls)
  {
    var c := s.crawler;
    var d := Done(c, [u]);
    assert [u][0] !in c.urls;
    SchedSendsSoleUndone(d, order, u);
    var q := Sched(d, order);
    assert Apply(c, Report([u])) == Pass(d, []);
    var t := RunStep(loop, c, Report([u]), order);
    assert t.crawler == q.crawler && t.sent == [u] && !t.stopped by {
      assert [] + q.sent == [u];
    }
    assert RemoveAt(s.pending, 0) == [];
    DeliverKeepsInv(loop, s, g, seed, 0, order);
  }

  /** The leaf's report after a pass that set the work flag: the loop as
      written goes idle without exiting, the rechecking loop exits. */
  lemma LastReportAfterBusyPass(s: System, g: Graph, seed: Url, order: seq<Url>)
    requires Inv(s, g, seed) && CanDeliver(s, g, 0, order)
    requires |s.pending| == 1 && ReportOf(g[s.pending[0]]) == []
    requires s.crawler.hasWork && AllVisited(s.crawler.urls)
    ensures
      var stalled := Deliver(AsWritten, s, g, 0, order);
      !stalled.stopped && stalled.pending == [] && stalled.crawler.nbusy == 0
    ensures Deliver(Rechecked, s, g, 0, order).stopped
  {
    var d := Done(s.crawler, []);
    assert Sched(d, order).sent == [];
    TurnShape(AsWritten, s.crawler, [], order);
    TurnShape(Rechecked, s.crawler, [], order);
  }

  /** A seed page whose only link is a leaf page: with the loop as written
      and any pool size, the seed's report dispatches the leaf, and the
      leaf's report leaves `run` not exited while no worker holds a page, so
      no further command can ever arrive and `wait` never returns. The
      rechecking loop exits on the same report. */
  lemma StallsOnSeedWithOneLeaf(g: Graph, seed: Url, leaf: Url, nworkers: int)
    requires nworkers >= 1 && Closed(g) && seed in g && leaf != seed
    requires ReportOf(g[seed]) == [leaf] && ReportOf(g[leaf]) == []
    ensures
      var order := [seed, leaf];
      var s0 := Boot(AsWritten, nworkers, seed);
      && CanDeliver(s0, g, 0, order)
      && var s1 := Deliver(AsWritten, s0, g, 0, order);
      && CanDeliver(s1, g, 0, order)
      && var s2 := Deliver(AsWritten, s1, g, 0, order);
      && !s2.stopped && s2.pending == [] && s2.crawler.nbusy == 0
      && Deliver(Rechecked, s1, g, 0, order).stopped
  {
    var order := [seed, leaf];
    BootEstablishes(AsWritten, nworkers, seed, g);
    var s0 := Boot(AsWritten, nworkers, seed);
    assert Done(s0.crawler, [leaf]).urls.Keys == {seed, leaf};
    ReportOfSoleNewPage(AsWritten, s0, g, seed, order, leaf);
    var s1 := Deliver(AsWritten, s0, g, 0, order);
    assert s1.crawler.urls.Keys == {seed, leaf};
    LastReportAfterBusyPass(s1, g, seed, order);
  }

  /** On the seed-and-leaf graph the loop as written stalls with any pool
      size, and the rechecking loop exits. */
  lemma AsWrittenStalls(nworkers: int)
    requires nworkers >= 1
    ensures
      var g := SeedAndLeaf();
      var s0 := Boot(AsWritten, nworkers, "S");
      && CanDeliver(s0, g, 0, ["S", "A"])
      && var s1 := Deliver(AsWritten, s0, g, 0, ["S", "A"]);
      && CanDeliver(s1, g, 0, ["S", "A"])
      && var s2 := Deliver(AsWritten, s1, g, 0, ["S", "A"]);
      && !s2.stopped && s2.pending == [] && s2.crawler.nbusy == 0
      && Deliver(Rechecked, s1, g, 0, ["S", "A"]).stopped
  {
    var g := SeedAndLeaf();
    assert Closed(g);
    StallsOnSeedWithOneLeaf(g, "S", "A", nworkers);
  }
}

=== FILE: format.dfy ===
/** Decimal formatting of integers, the `%d` verb of `fmt.Sprintf` as used for
    lombard24 page numbers. */
module Format {

  predicate IsDigits(s: string) {
    forall i | 0 <= i < |s| :: '0' <= s[i] <= '9'
  }

  function DigitChar(d: nat): (c: char)
    requires d < 10
    ensures '0' <= c <= '9'
  {
    ('0' as int + d) as char
  }

  /** The decimal digits of n, most significant first, without leading zeros. */
  function Decimal(n: nat): (s: string)
    ensures |s| >= 1 && IsDigits(s)
    decreases n
  {
    if n < 10 then [DigitChar(n)] else Decimal(n / 10) + [DigitChar(n % 10)]
  }

  /** The value of a string of decimal digits: the reading direction of Decimal. */
  function DigitsValue(s: string): nat
    requires IsDigits(s)
  {
    if |s| == 0 then 0
    else DigitsValue(s[..|s| - 1]) * 10 + (s[|s| - 1] as int - '0' as int)
  }

  lemma {:induction false} DecimalRoundTrip(n: nat)
    ensures DigitsValue(Decimal(n)) == n
    decreases n
  {
    if n >= 10 {
      var s := Decimal(n);
      assert s[..|s| - 1] == Decimal(n / 10);
      DecimalRoundTrip(n / 10);
    }
  }

  /** `fmt.Sprintf("%d", n)` for a Go `int`. */
  function FormatInt(n: int): (s: string)
    ensures |s| >= 1
    ensures n >= 0 ==> IsDigits(s)
    ensures s[0] == '-' <==> n < 0
  {
    if n < 0 then "-" + Decimal(-n) else Decimal(n)
  }

  /** Distinct naturals have distinct digit strings. */
  lemma DecimalInjective(x: nat, y: nat)
    requires Decimal(x) == Decimal(y)
    ensures x == y
  {
    DecimalRoundTrip(x);
    DecimalRoundTrip(y);
  }

  /** The digits after the sign of a negative number. */
  lemma NegativeDigits(n: int)
    requires n < 0
    ensures FormatInt(n)[1..] == Decimal(-n)
  {
    assert FormatInt(n) == "-" + Decimal(-n);
  }

  /** Distinct numbers print differently. */
  lemma FormatIntInjective(a: int, b: int)
    requires FormatInt(a) == FormatInt(b)
    ensures a == b
  {
    if a < 0 && b < 0 {
      NegativeDigits(a);
      NegativeDigits(b);
      DecimalInjective(-a, -b);
    } else if a >= 0 && b >= 0 {
      DecimalInjective(a, b);
    } else {
      // exactly one of the two renderings starts with '-'
      assert false;
    }
  }
}

=== FILE: http.dfy ===
/** The pure parts of http.go: list membership, the cookie filter applied
    before a request is sent, and the link normalization decision. The
    transport itself (client, cookie jar storage, request headers) is not
    modelled; the jar's answer and the already-parsed URL are inputs. */
module Http {
  import opened Prelude

  /** `inList(a, list)`. */
  method InList(a: string, list: seq<string>) returns (found: bool)
    ensures found <==> a in list
  {
    for i := 0 to |list|
      invariant a !in list[..i]
    {
      if a == list[i] {
        return true;
      }
    }
    return false;
  }

  /** The part of an `http.Cookie` the filter looks at and forwards. */
  datatype Cookie = Cookie(name: string, value: string)

  /** The jar's cookies whose names are not listed in skip, in jar order. */
  function Unskipped(jar: seq<Cookie>, skip: seq<string>): (kept: seq<Cookie>)
    ensures |kept| <= |jar|
    ensures forall c :: c in kept <==> c in jar && c.name !in skip
  {
    if |jar| == 0 then []
    else
      var last := jar[|jar| - 1];
      assert jar == jar[..|jar| - 1] + [last];
      Unskipped(jar[..|jar| - 1], skip) + (if last.name in skip then [] else [last])
  }

  /** A filter that names none of the jar's cookies forwards the whole jar. */
  lemma {:induction false} UnskippedKeepsAll(jar: seq<Cookie>, skip: seq<string>)
    requires forall c | c in jar :: c.name !in skip
    ensures Unskipped(jar, skip) == jar
  {
    if |jar| > 0 {
      var init, last := jar[..|jar| - 1], jar[|jar| - 1];
      assert jar == init + [last];
      forall c | c in init
        ensures c.name !in skip
      {
        assert c in jar;
      }
      UnskippedKeepsAll(init, skip);
      assert last in jar;
    }
  }

  /** `browser.setCookies`: the cookies `req.AddCookie` appends to a request
      that already carries `req`, given the jar's cookies for the root URL. */
  method SetCookies(jar: seq<Cookie>, req: seq<Cookie>, skip: seq<string>) returns (out: seq<Cookie>)
    ensures out == req + Unskipped(jar, skip)
  {
    out := req;
    for i := 0 to |jar|
      invariant out == req + Unskipped(jar[..i], skip)
    {
      assert jar[..i + 1][..i] == jar[..i];
      var c := jar[i];
      var skipped := InList(c.name, skip);
      if skipped {
        continue;
      }
      out := out + [c];
    }
    assert jar[..|jar|] == jar;
  }

  /** The fields of a `*url.URL` that `normalize` reads or writes. */
  datatype URL = URL(scheme: string, host: string, path: string, fragment: string)

  /** What `normalize` returns: a link `(surl, nil)`, a skipped link
      `("", nil)`, an error `("", err)`, or a run-time panic from indexing an
      empty string. */
  datatype Normalized = Accept(url: string) | Skip | Fail(error: string) | Crash

  /** The scheme test as written: true for every scheme. */
  predicate SkipsSchemeAsWritten(scheme: string) {
    scheme != "http" || scheme != "https"
  }

  /** The scheme test evidently intended: only non-web schemes are skipped. */
  predicate SkipsSchemeIntended(scheme: string) {
    scheme != "http" && scheme != "https"
  }

  /** A rendered link that is neither empty nor a bare fragment. */
  predicate IsPageLink(surl: string) {
    |surl| > 0 && surl[0] != '#'
  }

  /** The rewrite a same-site link goes through once the host and scheme are
      settled: relative paths are joined to the base path, the result is
      cleaned, a bare "/" becomes empty and the fragment is dropped. */
  function Resolve(base: URL, u: URL, clean: string -> string): (v: URL)
    requires |u.path| > 0
    ensures v.scheme == base.scheme && v.host == base.host && v.fragment == ""
    ensures v.path != "/"
    ensures v.path != "" ==> v.path == clean(if u.path[0] == '/' then u.path else base.path + u.path)
    ensures v.path == "" ==> clean(if u.path[0] == '/' then u.path else base.path + u.path) in {"", "/"}
  {
    var joined := if u.path[0] != '/' then base.path + u.path else u.path;
    var cleaned := clean(joined);
    URL(base.scheme, base.host, if cleaned == "/" then "" else cleaned, "")
  }

  /** `normalize` with the scheme test chosen by `intended`; `parsed` is the
      outcome of `url.Parse(surl)`, `clean` stands for `path.Clean` and
      `render` for `URL.String`. */
  function NormalizeWith(intended: bool, base: URL, parsed: Result<URL>,
                         clean: string -> string, render: URL -> string): Normalized
  {
    match parsed
    case Err(e) => Fail(e)
    case Ok(u0) =>
      if u0.host != "" && u0.host != base.host then Skip
      else
        var u := u0.(host := base.host);
        var skipScheme := if intended then SkipsSchemeIntended(u.scheme) else SkipsSchemeAsWritten(u.scheme);
        if u.scheme != "" && skipScheme then Skip
        else if u.scheme != "" && u.scheme != base.scheme then
          Fail("schema is " + u.scheme + ", it was " + base.scheme)
        else if |u.path| == 0 then Crash
        else
          var surl := render(Resolve(base, u, clean));
          if |surl| == 0 then Crash
          else if surl[0] == '#' then Skip
          else Accept(surl)
  }

  /** `browser.normalize` as written. */
  function Normalize(base: URL, parsed: Result<URL>, clean: string -> string,
                     render: URL -> string): (r: Normalized)
    ensures parsed.Err? ==> r == Fail(parsed.error)
    ensures r.Fail? ==> parsed.Err?
    ensures parsed.Ok? && parsed.value.host != "" && parsed.value.host != base.host ==> r == Skip
    ensures parsed.Ok? && parsed.value.scheme != "" ==> r == Skip
    ensures r.Accept? ==>
      && parsed.Ok? && parsed.value.scheme == "" && |parsed.value.path| > 0
      && (parsed.value.host == "" || parsed.value.host == base.host)
      && r.url == render(Resolve(base, parsed.value.(host := base.host), clean))
      && IsPageLink(r.url)
    ensures r.Crash? ==> parsed.Ok? && (parsed.value.path == "" || render(Resolve(base, parsed.value.(host := base.host), clean)) == "")
    ensures parsed.Ok? && (parsed.value.host == "" || parsed.value.host == base.host)
            && parsed.value.scheme == "" && parsed.value.path == ""
            ==> r == Crash
    ensures parsed.Ok? && (parsed.value.host == "" || parsed.value.host == base.host)
            && parsed.value.scheme == "" && |parsed.value.path| > 0
            && IsPageLink(render(Resolve(base, parsed.value.(host := base.host), clean)))
            ==> r == Accept(render(Resolve(base, parsed.value.(host := base.host), clean)))
    ensures parsed.Ok? && (parsed.value.host == "" || parsed.value.host == base.host)
            && parsed.value.scheme == "" && |parsed.value.path| > 0
            && !IsPageLink(render(Resolve(base, parsed.value.(host := base.host), clean)))
            ==> r == (if render(Resolve(base, parsed.value.(host := base.host), clean)) == "" then Crash else Skip)
  {
    NormalizeWith(false, base, parsed, clean, render)
  }

  /** `browser.normalize` with `&&` in the scheme test. */
  function NormalizeIntended(base: URL, parsed: Result<URL>, clean: string -> string,
                             render: URL -> string): (r: Normalized)
    ensures parsed.Err? ==> r == Fail(parsed.error)
    ensures r.Fail? ==> parsed.Err? || (parsed.value.scheme in {"http", "https"} && parsed.value.scheme != base.scheme)
    ensures parsed.Ok? && parsed.value.host != "" && parsed.value.host != base.host ==> r == Skip
    ensures parsed.Ok? && parsed.value.scheme != "" && parsed.value.scheme !in {"http", "https"} ==> r == Skip
    ensures parsed.Ok? && (parsed.value.host == "" || parsed.value.host == base.host)
            && (parsed.value.scheme == "" || (parsed.value.scheme in {"http", "https"} && parsed.value.scheme == base.scheme))
            && |parsed.value.path| > 0
            && IsPageLink(render(Resolve(base, parsed.value.(host := base.host), clean)))
            ==> r == Accept(render(Resolve(base, parsed.value.(host := base.host), clean)))
    ensures parsed.Ok? && (parsed.value.host == "" || parsed.value.host == base.host)
            && parsed.value.scheme in {"http", "https"} && parsed.value.scheme != base.scheme
            ==> r == Fail("schema is " + parsed.value.scheme + ", it was " + base.scheme)
    ensures parsed.Ok? && (parsed.value.host == "" || parsed.value.host == base.host)
            && (parsed.value.scheme == "" || (parsed.value.scheme in {"http", "https"} && parsed.value.scheme == base.scheme))
            && parsed.value.path == ""
            ==> r == Crash
    ensures parsed.Ok? && (parsed.value.host == "" || parsed.value.host == base.host)
            && (parsed.value.scheme == "" || (parsed.value.scheme in {"http", "https"} && parsed.value.scheme == base.scheme))
            && |parsed.value.path| > 0
            && !IsPageLink(render(Resolve(base, parsed.value.(host := base.host), clean)))
            ==> r == (if render(Resolve(base, parsed.value.(host := base.host), clean)) == "" then Crash else Skip)
    ensures r.Accept? ==>
      && parsed.Ok? && |parsed.value.path| > 0
      && r.url == render(Resolve(base, parsed.value.(host := base.host), clean))
      && IsPageLink(r.url)
  {
    NormalizeWith(true, base, parsed, clean, render)
  }

  /** A link to the same host with the same web scheme: the code as written
      drops it, the intended test keeps it. */
  lemma SameSiteAbsoluteLink()
    ensures
      var base := URL("http", "lombard24.ee", "/", "");
      var link := URL("http", "lombard24.ee", "/x", "");
      var clean := (p: string) => p;
      var render := (v: URL) => v.scheme + "://" + v.host + v.path;
      && Normalize(base, Ok(link), clean, render) == Skip
      && NormalizeIntended(base, Ok(link), clean, render) == Accept("http://lombard24.ee/x")
  {
  }

  /** A link whose scheme differs from the base's: the error branch is
      reached only with the intended test. */
  lemma SchemeMismatch()
    ensures
      var base := URL("http", "lombard24.ee", "/", "");
      var link := URL("https", "lombard24.ee", "/x", "");
      var clean := (p: string) => p;
      var render := (v: URL) => v.scheme + "://" + v.host + v.path;
      && Normalize(base, Ok(link), clean, render) == Skip
      && NormalizeIntended(base, Ok(link), clean, render) == Fail("schema is https, it was http")
  {
  }
}

=== FILE: legacy.dfy ===
/** main.go, an older single-file version of the program: a fixed loop over
    the lombard24.ee page numbers instead of the coordinator, and its own
    copies of the matcher and the cookie filter. Its `lomb24.match` builds an
    error value and drops it, so it has no effect and is not modelled. */
module Legacy {
  import opened Prelude
  import Matching
  import Http
  import Format

  /** main.go's `matcher.match`: the same counting loop as match.go. */
  function Match(m: Matching.Matcher, data: bytes): (r: bool)
    ensures r <==> forall w | w in m.words :: Matching.Contains(data, w)
    ensures r == Matching.Match(m, data)
  {
    Matching.CountContained(m.words, data) == |m.words|
  }

  /** main.go's `inList`. */
  method InList(a: string, list: seq<string>) returns (found: bool)
    ensures found <==> a in list
  {
    found := Http.InList(a, list);
  }

  /** main.go's `browser.setCookies`: the same filter as http.go. */
  method SetCookies(jar: seq<Http.Cookie>, req: seq<Http.Cookie>, skip: seq<string>)
    returns (out: seq<Http.Cookie>)
    ensures out == req + Http.Unskipped(jar, skip)
    ensures forall c :: c in out[|req|..] <==> c in jar && c.name !in skip
  {
    out := Http.SetCookies(jar, req, skip);
    assert out[|req|..] == Http.Unskipped(jar, skip);
  }

  /** Page k was fetched and its body matches. */
  predicate PageMatches(m: Matching.Matcher, fetch: string -> Result<bytes>, k: int) {
    fetch(Format.FormatInt(k)).Ok? && Match(m, fetch(Format.FormatInt(k)).value)
  }

  /** `lomb24.crawl`: post for page numbers 1, 2, ... while below `pages`;
      `fetch` is `visit`'s answer for a page-number string. Returns the
      numbers requested, the numbers logged as matching, and the message
      `log.Fatalf` ends the process with, if any. */
  method CrawlPages(pages: int, m: Matching.Matcher, fetch: string -> Result<bytes>)
    returns (requested: seq<int>, matches: seq<int>, fatal: Option<string>)
    ensures forall j | 0 <= j < |requested| :: requested[j] == j + 1 && requested[j] < pages
    ensures fatal.None? ==> |requested| == (if pages > 1 then pages - 1 else 0)
    ensures forall k | 1 <= k <= |requested| && (fatal.None? || k < |requested|) ::
      fetch(Format.FormatInt(k)).Ok?
    ensures fatal.Some? ==>
      && |requested| > 0
      && fetch(Format.FormatInt(|requested|)).Err?
      && fatal.value == "error in page " + Format.FormatInt(|requested|) + ": "
                        + fetch(Format.FormatInt(|requested|)).error
    ensures forall k :: k in matches <==> 1 <= k <= |requested| && PageMatches(m, fetch, k)
    ensures forall a, b | 0 <= a < b < |matches| :: matches[a] < matches[b]
  {
    requested := [];
    matches := [];
    fatal := None;
    var i := 1;
    while i < pages
      invariant 1 <= i && (i <= pages || i == 1)
      invariant |requested| == i - 1
      invariant forall j | 0 <= j < |requested| :: requested[j] == j + 1
      invariant forall k | 1 <= k < i :: fetch(Format.FormatInt(k)).Ok?
      invariant forall k :: k in matches <==> 1 <= k < i && PageMatches(m, fetch, k)
      invariant forall a | 0 <= a < |matches| :: matches[a] < i
      invariant forall a, b | 0 <= a < b < |matches| :: matches[a] < matches[b]
      decreases pages - i
    {
      var body := fetch(Format.FormatInt(i));
      requested := requested + [i];
      if body.Err? {
        fatal := Some("error in page " + Format.FormatInt(i) + ": " + body.error);
        return;
      }
      if PageMatches(m, fetch, i) {
        matches := matches + [i];
      }
      i := i + 1;
    }
  }
}

=== FILE: lomb24.dfy ===
/** The lombard24.ee site adapter of lomb24.go: a start page listing numbered
    detail pages, and the site's `visit` dispatching on the page's type. The
    HTTP requests themselves are not modelled: `visit` receives the
    transport's answer, and the start page's `pages` receives goquery's
    outcome as the number of selector hits. */
module Lomb24 {
  import opened Prelude
  import Format

  /** `lomb24`: the site's fixed addresses and the selector that finds the
      listed pages. */
  datatype Site = Site(startURL: Url, jsonURL: Url, path: string)

  /** The site `newLomb24` builds. */
  function NewLomb24(): (l: Site)
    ensures l.startURL == "http://lombard24.ee/"
    ensures l.jsonURL == "http://lombard24.ee/addons/234jfsdm2n_lombard/ajax/change_page.php"
    ensures l.path == "#pg a"
  {
    Site("http://lombard24.ee/",
         "http://lombard24.ee/addons/234jfsdm2n_lombard/ajax/change_page.php",
         "#pg a")
  }

  /** `lomb24startpage`. */
  datatype StartPage = StartPage(body: bytes, psite: Site)

  /** `lomb24page`: one listed page, by number. */
  datatype DetailPage = DetailPage(num: int, body: bytes, psite: Site)

  /** A page of this site. */
  datatype Page = Start(start: StartPage) | Detail(detail: DetailPage)

  /** The dynamic type behind the `page` interface value given to `visit`:
      one of this site's pages or a page of some other implementation. */
  datatype Handle = Own(page: Page) | Other(url: Url)

  /** `lomb24page.url`. */
  function DetailUrl(num: int): (u: Url)
    ensures |u| > 18 && u[..18] == "lombard24.ee page "
    ensures u[18..] == Format.FormatInt(num)
  {
    "lombard24.ee page " + Format.FormatInt(num)
  }

  /** `url()` of either page kind. */
  function PageUrl(p: Page): (u: Url)
    ensures p.Start? ==> u == PageSite(p).startURL
    ensures p.Detail? ==> u == DetailUrl(p.detail.num)
  {
    match p
    case Start(sp) => sp.psite.startURL
    case Detail(pg) => DetailUrl(pg.num)
  }

  /** `site()` of either page kind. */
  function PageSite(p: Page): (l: Site)
    ensures l == if p.Start? then p.start.psite else p.detail.psite
  {
    match p
    case Start(sp) => sp.psite
    case Detail(pg) => pg.psite
  }

  /** `contents()` of either page kind. */
  function Contents(p: Page): (body: bytes)
    ensures body == if p.Start? then p.start.body else p.detail.body
  {
    match p
    case Start(sp) => sp.body
    case Detail(pg) => pg.body
  }

  /** Page numbers and detail URLs determine each other. */
  lemma DetailUrlInjective(a: int, b: int)
    ensures DetailUrl(a) == DetailUrl(b) <==> a == b
  {
    if DetailUrl(a) == DetailUrl(b) {
      var prefix := "lombard24.ee page ";
      assert Format.FormatInt(a) == DetailUrl(a)[|prefix|..];
      assert Format.FormatInt(b) == DetailUrl(b)[|prefix|..];
      Format.FormatIntInjective(a, b);
    }
  }

  /** `lomb24startpage.pages`: one detail page per selector hit, the i-th
      numbered i + 1; `hits` is goquery's outcome on the body. */
  function StartPages(sp: StartPage, hits: Result<nat>): (r: Result<seq<Page>>)
    ensures hits.Err? ==> r.Err?
    ensures hits.Ok? ==> r.Ok? && |r.value| == hits.value
    ensures hits.Ok? ==> forall i | 0 <= i < |r.value| ::
              r.value[i] == Detail(DetailPage(i + 1, [], sp.psite))
  {
    match hits
    case Err(e) => Err("cannot use gquery: " + e)
    case Ok(n) => Ok(seq(n, i => Detail(DetailPage(i + 1, [], sp.psite))))
  }

  /** The pages the start page lists have pairwise distinct URLs, all
      different from the start URL, and belong to the same site. */
  lemma StartPagesDistinct(sp: StartPage, n: nat)
    requires sp.psite == NewLomb24()
    ensures
      var ps := StartPages(sp, Ok(n)).value;
      && (forall i, j | 0 <= i < j < |ps| :: PageUrl(ps[i]) != PageUrl(ps[j]))
      && (forall i | 0 <= i < |ps| :: PageUrl(ps[i]) != PageUrl(Start(sp)))
      && (forall i | 0 <= i < |ps| :: PageSite(ps[i]) == sp.psite)
  {
    var ps := StartPages(sp, Ok(n)).value;
    forall i, j | 0 <= i < j < |ps|
      ensures PageUrl(ps[i]) != PageUrl(ps[j])
    {
      DetailUrlInjective(i + 1, j + 1);
    }
    forall i | 0 <= i < |ps|
      ensures PageUrl(ps[i]) != PageUrl(Start(sp))
    {
      StartUrlIsNoDetailUrl(i + 1);
    }
  }

  /** The start URL is not the URL of any listed page. */
  lemma StartUrlIsNoDetailUrl(num: int)
    ensures DetailUrl(num) != NewLomb24().startURL
  {
    assert DetailUrl(num)[0] == 'l';
  }

  /** `lomb24.start`: the start page with the body fetched from the start
      URL; `fetched` is the transport's answer. */
  function StartOf(l: Site, fetched: Result<bytes>): (r: Result<Page>)
    ensures r.Ok? <==> fetched.Ok?
    ensures fetched.Err? ==> r == Err(fetched.error)
    ensures r.Ok? ==>
      && r.value.Start?
      && PageUrl(r.value) == l.startURL
      && PageSite(r.value) == l
      && Contents(r.value) == fetched.value
  {
    match fetched
    case Err(e) => Err(e)
    case Ok(body) => Ok(Start(StartPage(body, l)))
  }

  /** `lomb24page.pages`: a listed page links nowhere. */
  function DetailPages(pg: DetailPage): (r: Result<seq<Page>>)
    ensures r == Ok([])
  {
    Ok([])
  }

  /** `lomb24.visit`: re-fetch the start page or post for a listed page, and
      return the same page with the fetched body; `fetched` is the
      transport's answer. Any other page type is rejected. */
  function Visit(l: Site, h: Handle, fetched: Result<bytes>): (r: Result<Page>)
    ensures h.Other? ==> r == Err("unexpected page")
    ensures h.Own? && fetched.Err? ==> r.Err?
    ensures h.Own? && fetched.Ok? ==>
      && r.Ok?
      && r.value.Start? == h.page.Start?
      && PageUrl(r.value) == PageUrl(h.page)
      && PageSite(r.value) == PageSite(h.page)
      && Contents(r.value) == fetched.value
  {
    match h
    case Other(_) => Err("unexpected page")
    case Own(Start(sp)) =>
      (match fetched
       case Err(e) => Err("cannot open startpage: " + e)
       case Ok(body) => Ok(Start(sp.(body := body))))
    case Own(Detail(pg)) =>
      (match fetched
       case Err(e) => Err(e)
       case Ok(body) => Ok(Detail(pg.(body := body))))
  }
}

=== FILE: lomb24_crawl.dfy ===
/** The lombard24.ee adapter plugged into the coordinator: what a worker
    reports for each page of the site, the link graph this induces, and what
    a crawl of that graph does. */
module Lomb24Crawl {
  import opened Prelude
  import opened Crawl
  import opened CrawlRun
  import Lomb24

  /** The URLs of the pages a site page lists, as `done` keys them;
      `hits` is goquery's outcome on a start page's body. */
  function LinkUrls(p: Lomb24.Page, hits: Result<nat>): (r: Result<seq<Url>>)
    ensures p.Detail? ==> r == Ok([])
    ensures p.Start? ==> (r.Ok? <==> hits.Ok?)
    ensures p.Start? && hits.Ok? ==>
      && |r.value| == hits.value
      && forall i | 0 <= i < |r.value| :: r.value[i] == Lomb24.DetailUrl(i + 1)
  {
    var listed := match p
      case Start(sp) => Lomb24.StartPages(sp, hits)
      case Detail(pg) => Lomb24.DetailPages(pg);
    match listed
    case Err(e) => Err(e)
    case Ok(ps) => Ok(seq(|ps|, i requires 0 <= i < |ps| => Lomb24.PageUrl(ps[i])))
  }

  /** A worker's view of a page whose `site()` is lombard24.ee, so that
      lombard24.ee's `visit` handles it: the visit fails for a page of a
      foreign type or a failed request, never yields a nil page, and
      otherwise reports the page's URL, fetched body and listed pages. */
  function WorkerVisit(h: Lomb24.Handle, fetched: Result<bytes>, hits: Result<nat>): (v: Visit)
    ensures v.VisitFailed? <==> h.Other? || fetched.Err?
    ensures !v.NoPage?
    ensures v.Visited? ==>
      && v.url == Lomb24.PageUrl(h.page)
      && v.contents == fetched.value
      && v.pages == LinkUrls(h.page, hits)
  {
    match Lomb24.Visit(Lomb24.NewLomb24(), h, fetched)
    case Err(e) => VisitFailed(e)
    case Ok(p) => Visited(Lomb24.PageUrl(p), Lomb24.Contents(p), LinkUrls(p, hits))
  }

  function StartUrl(): Url {
    Lomb24.NewLomb24().startURL
  }

  /** The URLs of the n pages the start page lists, in selector order. */
  function ListedUrls(n: nat): seq<Url> {
    seq(n, i => Lomb24.DetailUrl(i + 1))
  }

  function ListedSet(n: nat): set<Url> {
    set i | 1 <= i <= n :: Lomb24.DetailUrl(i)
  }

  /** The site as the workers see it when the start page lists n pages and
      every request succeeds with an empty body (bodies do not affect the
      frontier). */
  function SiteGraph(n: nat): Graph {
    (map u | u in ListedSet(n) :: Visited(u, [], Ok([])))
      [StartUrl() := Visited(StartUrl(), [], Ok(ListedUrls(n)))]
  }

  /** Listing one more page adds one URL not listed before. */
  lemma ListedSetGrows(n: nat)
    requires n >= 1
    ensures ListedSet(n) == ListedSet(n - 1) + {Lomb24.DetailUrl(n)}
    ensures Lomb24.DetailUrl(n) !in ListedSet(n - 1)
  {
    forall i | 1 <= i <= n - 1
      ensures Lomb24.DetailUrl(i) != Lomb24.DetailUrl(n)
    {
      Lomb24.DetailUrlInjective(i, n);
    }
  }

  /** n listed pages have n distinct URLs. */
  lemma {:induction false} ListedSetSize(n: nat)
    ensures |ListedSet(n)| == n
  {
    if n == 0 {
      assert ListedSet(0) == {};
    } else {
      ListedSetSize(n - 1);
      ListedSetGrows(n);
    }
  }

  /** Every entry of the site graph is what a worker reports for the
      corresponding page of the site. */
  lemma SiteGraphIsWorkersView(n: nat)
    ensures SiteGraph(n).Keys == {StartUrl()} + ListedSet(n)
    ensures SiteGraph(n)[StartUrl()] ==
      WorkerVisit(Lomb24.Own(Lomb24.Start(Lomb24.StartPage([], Lomb24.NewLomb24()))), Ok([]), Ok(n))
    ensures forall i | 1 <= i <= n ::
      && Lomb24.DetailUrl(i) in SiteGraph(n)
      && SiteGraph(n)[Lomb24.DetailUrl(i)] ==
         WorkerVisit(Lomb24.Own(Lomb24.Detail(Lomb24.DetailPage(i, [], Lomb24.NewLomb24()))), Ok([]), Ok(0))
  {
    var sp := Lomb24.Start(Lomb24.StartPage([], Lomb24.NewLomb24()));
    assert LinkUrls(sp, Ok(n)).value == ListedUrls(n);
    forall i | 1 <= i <= n
      ensures Lomb24.DetailUrl(i) != StartUrl()
    {
      Lomb24.StartUrlIsNoDetailUrl(i);
    }
  }

  /** Every link of the site graph leads to one of its pages. */
  lemma SiteGraphClosed(n: nat)
    ensures Closed(SiteGraph(n)) && StartUrl() in SiteGraph(n)
  {
    var g := SiteGraph(n);
    SiteGraphIsWorkersView(n);
    forall k | k in g
      ensures forall l | l in ReportOf(g[k]) :: l in g
    {
      if k == StartUrl() {
        assert ReportOf(g[k]) == ListedUrls(n);
        forall l | l in ListedUrls(n)
          ensures l in g
        {
          var i :| 0 <= i < n && ListedUrls(n)[i] == l;
          assert l == Lomb24.DetailUrl(i + 1);
          assert l in ListedSet(n);
        }
      } else {
        assert g[k] == Visited(k, [], Ok([]));
        assert ReportOf(g[k]) == [];
      }
    }
  }

  /** A set of site URLs that holds the start URL and every page it lists
      is the whole site: the start page and its n listed pages. */
  lemma FrontierIsWholeSite(n: nat, keys: set<Url>)
    requires StartUrl() in keys
    requires forall k | k in keys :: k in SiteGraph(n)
    requires forall i | 0 <= i < n :: ListedUrls(n)[i] in keys
    ensures keys == {StartUrl()} + ListedSet(n)
    ensures |keys| == n + 1
  {
    SiteGraphIsWorkersView(n);
    forall i | 1 <= i <= n
      ensures Lomb24.DetailUrl(i) in keys && Lomb24.DetailUrl(i) != StartUrl()
    {
      assert ListedUrls(n)[i - 1] == Lomb24.DetailUrl(i);
      Lomb24.StartUrlIsNoDetailUrl(i);
    }
    ListedSetSize(n);
  }

  /** Whatever order the reports arrive in and whatever order each pass
      iterates the map in, a run on the site that has exited has dispatched
      exactly the start page and its n listed pages, each once. */
  lemma ExitedSiteCrawlIsWholeSite(n: nat, s: System)
    requires Inv(s, SiteGraph(n), StartUrl()) && s.stopped
    ensures s.crawler.urls.Keys == {StartUrl()} + ListedSet(n)
    ensures AllVisited(s.crawler.urls)
    ensures Distinct(s.dispatched) && |s.dispatched| == n + 1
  {
    var g := SiteGraph(n);
    var start := StartUrl();
    var keys := s.crawler.urls.Keys;
    StoppedIsComplete(s, g, start);
    assert g[start] == Visited(start, [], Ok(ListedUrls(n)));
    assert forall l | l in ReportOf(g[start]) :: l in s.crawler.urls;
    forall i | 0 <= i < n
      ensures ListedUrls(n)[i] in keys
    {
      assert ListedUrls(n)[i] in ReportOf(g[start]);
    }
    FrontierIsWholeSite(n, keys);
  }

  /** With the rechecking loop, crawling a site whose start page lists n
      pages does exit, and so dispatches the start page and each listed page
      exactly once, and nothing else. */
  lemma SiteCrawlVisitsEveryListedPage(n: nat, nworkers: int)
    requires nworkers >= 1
    ensures Closed(SiteGraph(n)) && StartUrl() in SiteGraph(n)
    ensures
      var r := CompleteRun(SiteGraph(n), StartUrl(), nworkers);
      && r.crawler.urls.Keys == {StartUrl()} + ListedSet(n)
      && AllVisited(r.crawler.urls)
      && Distinct(r.dispatched)
      && |r.dispatched| == n + 1
  {
    SiteGraphClosed(n);
    ExitedSiteCrawlIsWholeSite(n, CompleteRun(SiteGraph(n), StartUrl(), nworkers));
  }

  /** With the loop as written, a start page listing one page leaves `run`
      idle without exiting once that page reports, for any pool size; the
      rechecking loop exits on the same report. */
  lemma AsWrittenStallsOnSite(nworkers: int)
    requires nworkers >= 1
    ensures
      var g := SiteGraph(1);
      var order := [StartUrl(), Lomb24.DetailUrl(1)];
      var s0 := Boot(AsWritten, nworkers, StartUrl());
      && CanDeliver(s0, g, 0, order)
      && var s1 := Deliver(AsWritten, s0, g, 0, order);
      && CanDeliver(s1, g, 0, order)
      && var s2 := Deliver(AsWritten, s1, g, 0, order);
      && !s2.stopped && s2.pending == [] && s2.crawler.nbusy == 0
      && Deliver(Rechecked, s1, g, 0, order).stopped
  {
    var g := SiteGraph(1);
    var page := Lomb24.DetailUrl(1);
    SiteGraphClosed(1);
    SiteGraphIsWorkersView(1);
    Lomb24.StartUrlIsNoDetailUrl(1);
    assert ReportOf(g[StartUrl()]) == [page];
    StallsOnSeedWithOneLeaf(g, StartUrl(), page, nworkers);
  }
}

=== FILE: matching.dfy ===
/** The content matcher of match.go: a page matches when every configured
    word occurs somewhere in its contents. */
module Matching {
  import opened Prelude

  datatype Matcher = Matcher(words: seq<bytes>)

  /** word occurs in data starting at offset i. */
  predicate OccursAt(data: bytes, word: bytes, i: nat) {
    i + |word| <= |data| && data[i..i + |word|] == word
  }

  /** `bytes.Contains(data, word)`: word occurs as a contiguous run of data. */
  predicate Contains(data: bytes, word: bytes) {
    exists i: nat | i <= |data| :: OccursAt(data, word, i)
  }

  /** The loop counter `nmatch` after visiting every word: how many of the
      words occur in data. */
  function CountContained(words: seq<bytes>, data: bytes): (n: nat)
    ensures n <= |words|
    ensures n == |words| <==> forall i | 0 <= i < |words| :: Contains(data, words[i])
  {
    if |words| == 0 then 0
    else
      var last := if Contains(data, words[|words| - 1]) then 1 else 0;
      CountContained(words[..|words| - 1], data) + last
  }

  /** `matcher.match`: the counter reaches `len(words)`. */
  function Match(m: Matcher, data: bytes): (r: bool)
    ensures r <==> forall w | w in m.words :: Contains(data, w)
  {
    CountContained(m.words, data) == |m.words|
  }

  lemma MatchWithoutWords(data: bytes)
    ensures Match(Matcher([]), data)
  {
  }

  /** Only the set of words matters: reordering or repeating words changes nothing. */
  lemma MatchDependsOnWordSet(a: seq<bytes>, b: seq<bytes>, data: bytes)
    requires forall w :: w in a <==> w in b
    ensures Match(Matcher(a), data) == Match(Matcher(b), data)
  {
  }

  /** Fewer words can only make matching easier. */
  lemma MatchAntitone(a: seq<bytes>, b: seq<bytes>, data: bytes)
    requires forall w | w in b :: w in a
    ensures Match(Matcher(a), data) ==> Match(Matcher(b), data)
  {
  }
}

=== FILE: prelude.dfy ===
/** Shared vocabulary of the crawler model: URLs, bytes, Go's (value, error)
    pairs and a few facts about sequences used across modules. */
module Prelude {

  /** A page identity as returned by `page.url()`. */
  type Url = string

  /** A Go `byte`. */
  type byte = b: int | 0 <= b < 0x100

  type bytes = seq<byte>

  datatype Option<+T> = None | Some(value: T)

  /** A Go `(T, error)` pair: either a value or a non-nil error message. */
  datatype Result<+T> = Ok(value: T) | Err(error: string)

  predicate Distinct<T(==)>(s: seq<T>) {
    forall i, j | 0 <= i < j < |s| :: s[i] != s[j]
  }

  function Elements<T>(s: seq<T>): set<T> {
    set x | x in s
  }

  /** The sequence with its i-th element taken out. */
  function RemoveAt<T>(s: seq<T>, i: nat): (r: seq<T>)
    requires i < |s|
    ensures |r| == |s| - 1
    ensures forall x :: x in r ==> x in s
    ensures Distinct(s) ==> Distinct(r) && s[i] !in r
    ensures forall x | x in s && x != s[i] :: x in r
  {
    s[..i] + s[i + 1..]
  }

  /** A sequence without repetitions has as many elements as its set. */
  lemma {:induction false} DistinctCardinality<T>(s: seq<T>)
    requires Distinct(s)
    ensures |Elements(s)| == |s|
  {
    if |s| > 0 {
      DistinctCardinality(s[1..]);
      assert Elements(s) == {s[0]} + Elements(s[1..]);
      assert s[0] !in Elements(s[1..]);
    }
  }

  /** Joining two repetition-free sequences with no element in common keeps
      them repetition-free. */
  lemma DistinctConcat<T>(a: seq<T>, b: seq<T>)
    requires Distinct(a) && Distinct(b)
    requires forall x | x in b :: x !in a
    ensures Distinct(a + b)
  {
    forall i, j | 0 <= i < j < |a + b|
      ensures (a + b)[i] != (a + b)[j]
    {
      if j >= |a| && i < |a| {
        assert (a + b)[j] == b[j - |a|];
        assert b[j - |a|] in b;
      }
    }
  }
}
